=== FILE: README.md ===
# gravity-image physics core in Dafny

A model of the physics synchronisation core of a three.js / cannon-es demo
that shows a photo as a mosaic of small boxes inside a container frame. The
render thread builds every box as a `PhysicsMesh`, which registers a rigid
body with a physics worker and pushes its pose there; the worker keeps the
bodies in a dictionary keyed by guid and in the simulation world's body list.

What is modelled:

- `Vectors` (src/utils.ts): the render vectors, the physics vectors and the
  plain `{x, y, z}` / `{x, y, z, w}` records that cross the worker boundary,
  with the component-wise copies between them and their round trips.
- `Geometry` (src/utils.ts): `GEOMETRY_TYPE`, `getGeometryType` (plane, box,
  or `undefined` for anything else), the geometry's parameter record and
  `parametersToVec`.
- `Worker` (src/worker.ts): the geometry-to-box mapping (the plane's z
  half-extent is the literal 1), body construction with the options spread
  last, and the registry with `addBody`, `updateBodyPositionQuaternion` and
  `tick`. The dictionary maps a guid to a handle into the world's body list,
  which is how the model keeps the source's sharing: the object in the
  dictionary and the one in the world are the same body.
- `Protocol` (src/script.ts, `PhysicsMesh`): the calls on the worker as a
  list of requests applied in order, the mesh's constructor, pose push and
  pose pull, and per-entity isolation: a guid's body depends only on that
  guid's own calls.
- `Guid`: the guid text `Math.floor(Math.random() * 100000) + ''`.
- `Layout` (src/script.ts): the arithmetic of `onResize` and
  `addImageCubes` over `real`: container size, depth and border, cube
  centres, spacing, and texture tiles.
- `Scene` (src/script.ts): the five walls of `addContainer` and the cube
  grid of `addImageCubes` as placements, the traffic they generate, and what
  the worker holds afterwards.

Facts of the code the model keeps: `addBody` registers a body without a
shape for an unsupported geometry, after logging an error
(src/worker.ts:48-60); a plane gets the literal z half-extent 1
(src/worker.ts:40); `tick` returns the dictionary object itself
(src/worker.ts:73); and a mass, body type or material the options leave out
is left to the physics library's default.

## Model

| member | source | states |
|---|---|---|
| Vectors.ThreeToCannonVec | src/utils.ts:32-34 | the physics vector has the render vector's x, y and z |
| Vectors.CannonToThreeVec | src/utils.ts:44-46 | the render vector has the physics vector's x, y and z |
| Vectors.CopyToCannonVec | src/worker.ts:66 | `Vec3.copy` of a plain record: the body position takes the record's x, y and z |
| Vectors.CopyToCannonQuaternion | src/worker.ts:67 | `Quaternion.copy` of a plain record: the body quaternion takes its x, y, z and w |
| Vectors.CannonToThreeQuaternion | src/script.ts:56 | the mesh quaternion takes the body quaternion's x, y, z and w |
| Vectors.SimplifyPosition | src/utils.ts:36-38 | the plain record carries the x, y, z of either kind of vector |
| Vectors.SimplifyQuaternion | src/utils.ts:40-42 | the plain record carries the x, y, z, w of either kind of quaternion |
| Vectors.ThreeCannonRoundTrip | src/utils.ts:32-46 | render to physics and back is the identity |
| Vectors.CannonThreeRoundTrip | src/utils.ts:32-46 | physics to render and back is the identity |
| Vectors.PoseWireRoundTrip | src/script.ts:42-57 | a render pose simplified, copied into a body and copied back arrives unchanged |
| Vectors.CannonWireRoundTrip | src/worker.ts:63-68 | a body pose simplified and copied back into a body is unchanged |
| Geometry.GetGeometryType | src/utils.ts:13-17 | plane geometry iff PLANE tag, box geometry iff BOX tag, any other geometry iff no value |
| Geometry.Parameters | src/script.ts:34 | a plane or box passes its width and height, a box also its depth; any other geometry sends none, since the worker reads parameters only under a tag |
| Geometry.DerivedParametersMatch | src/script.ts:29-34 | the tag and parameters a mesh derives from its geometry satisfy the worker's casts |
| Geometry.ParametersToVec | src/utils.ts:48-50 | width goes to x, height to y, depth to z |
| Worker.ShapeFor | src/worker.ts:37-50 | box: half of each dimension; plane: half width and height, z half-extent the constant 1; no shape exactly when the tag is missing |
| Worker.BoxShapeMatchesParametersVec | src/worker.ts:43-46 | a box shape's full extents equal parametersToVec of the same parameters |
| Worker.Lookup | src/worker.ts:64 | on a valid registry a guid has a body iff it is registered, and that body is one of the world's |
| Worker.NewBody | src/worker.ts:52-57 | each key present in the options wins over the computed shape and received pose; absent keys keep them |
| Worker.Teleport | src/worker.ts:66-67 | a teleported body has the given pose and keeps its shape, mass, type and material |
| Worker.AddBody | src/worker.ts:28-61 | the new body is appended as the world's last entry and the guid's handle names that same entry; earlier bodies kept, every other guid keeps its handle and so its body, registry validity kept |
| Worker.ReAddOrphansEarlierBody | src/worker.ts:59-60 | re-adding a registered guid keeps the key count, leaves the earlier body in the world, and no guid reaches it |
| Worker.UpdateBodyPositionQuaternion | src/worker.ts:63-69 | unknown guid: nothing changes; known guid: only that body is teleported; keys, world size and all other bodies unchanged |
| Worker.UpdateIdempotent | src/worker.ts:63-69 | repeating an update changes nothing further |
| Worker.UpdateLastWriteWins | src/worker.ts:63-69 | of two updates of the same guid only the later one is visible |
| Worker.Snapshot | src/worker.ts:71-74 | the dictionary seen by a caller has exactly the registered guids, each with the body it names |
| Worker.Tick | src/worker.ts:71-74 | stepping keeps the dictionary and its keys, the returned entries are the stepped world's bodies, validity kept |
| Guid.DecimalString | src/script.ts:28 | the guid text is a non-empty string of decimal digits |
| Guid.ParseDecimalString | src/script.ts:28 | reading the guid text back gives the drawn number |
| Guid.DecimalStringInjective | src/script.ts:28 | two numbers have the same guid text iff they are equal |
| Guid.DecimalStringLength | src/script.ts:28 | a number below 10^k has at most k digits |
| Guid.Draw | src/script.ts:28 | the draw is the floor of random times 100000, below 100000 |
| Guid.GuidFromRandom | src/script.ts:28 | the guid has one to five digits and reads back as the draw |
| Guid.DistinctRandomsCanShareGuid | src/script.ts:28 | two different random values give the same guid |
| Protocol.ApplyAll | src/worker.ts:28-69 | in-order delivery: the world gains one body per addBody, the keys gain exactly the added guids, validity kept |
| Protocol.ApplyLookup | src/worker.ts:59-68 | one call changes only the body of the guid it names, as the per-entity step says |
| Protocol.PerEntityIsolation | src/worker.ts:28-69 | a guid's body after any traffic equals its own calls applied alone, whatever the other guids' calls |
| Protocol.UpdatesLeaveLastPose | src/worker.ts:63-69 | a registered body ends at the last of a run of updates, everything else kept |
| Protocol.UpdatesBeforeRegistrationDropped | src/worker.ts:64-65 | updates that arrive before registration are lost and create nothing |
| Protocol.NewPhysicsMesh | src/script.ts:25-40 | the mesh starts at the default pose and issues one addBody with its guid, tag, parameters, options and exactly its pose |
| Protocol.PushPose | src/script.ts:42-52 | the update names the mesh's guid and carries a pose the worker stores as exactly the mesh's pose |
| Protocol.SetMeshPosQuatFromBody | src/script.ts:54-57 | the mesh takes the body's position and quaternion and keeps its guid and geometry |
| Protocol.PushThenPullIsIdentity | src/script.ts:42-57 | pushing a mesh's pose and pulling the body's pose back leaves the mesh unchanged |
| Protocol.MeshEndsAtLastPush | src/script.ts:25-57 | a mesh's addBody then pushes, amid any traffic: the body has the mesh's shape and options; pulling it reproduces the last pushing mesh, and with no push it sits at the options' pose or else the construction pose |
| Layout.WithImageArea | src/script.ts:203-204 | width and height are each reduced by the same amount, containerWidth times the border fraction |
| Layout.OnResize | src/script.ts:184-204 | container keeps the image's aspect ratio; width fixed to the scene width when the image ratio exceeds the window ratio, height fixed to the scene height otherwise; depth is the scene width's fraction plus thickness whichever branch; uniform border |
| Layout.OnResizeOverflowsScene | src/script.ts:194-201 | for a 2:1 window and a square image the container is twice the scene height |
| Layout.OnResizeFitted | src/script.ts:194-201 | with the fit test corrected the container keeps the aspect ratio and fits inside the scene rectangle |
| Layout.CubeSpacing | src/script.ts:317-328 | neighbouring centres (CubeCenterX, CubeCenterY over CellCenter) differ by cube width plus gap in x (ColSize, GapSize) and cube height plus gap in y (RowSize) |
| Layout.GridFillsImage | src/script.ts:317-320 | n cubes plus n-1 gaps (TotalGapSize) make up exactly the image width and height |
| Layout.GridSpansImage | src/script.ts:317-328 | the first column's left edge is at -imageWidth/2 and the last one's right edge at +imageWidth/2; rows likewise |
| Layout.AxisCellWithin | src/script.ts:317-328 | along one axis, n cells and n-1 non-negative gaps filling a non-negative extent keep every cell inside it |
| Layout.CubeWithinImage | src/script.ts:317-328 | with non-negative image size every cube lies within the image rectangle |
| Layout.TilesTileUnitInterval | src/script.ts:341-343 | tiles of repeat 1/n (TileRepeat) at offset k/n (TileOffset) lie in [0,1], start at 0, end at 1 and abut |
| Layout.TilesDisjoint | src/script.ts:341-343 | distinct tiles do not overlap |
| Scene.ContainerWalls | src/script.ts:256-304 | five static, massless concrete box walls |
| Scene.CubeOfCell | src/script.ts:325-338 | the cube of column c and row r (CubePlacement: a ColSize by RowSize by ImageDepth box moved to that cell's centre) is the (c*n+r)-th of the n*n meshes CubePlacements builds, so every cell is built |
| Scene.CubesWithinImage | src/script.ts:316-338 | every cube built lies within the image rectangle |
| Scene.ScenePlacements | src/script.ts:167-182 | the walls come first, then the 400 cubes of CubePlacements |
| Scene.MeshTraffic | src/script.ts:274-276 | each mesh issues an addBody then, after `position.set` (SetPosition), an update, both naming its guid |
| Scene.Traffic | src/script.ts:274-339 | the meshes' traffic adds one body per mesh and registers exactly their guids |
| Scene.RequestsForTraffic | src/script.ts:274-339 | with distinct guids, a guid's calls are exactly its own mesh's two calls |
| Scene.TrafficRegistrySize | src/worker.ts:59-60 | with distinct guids the dictionary has as many keys as the world has bodies |
| Scene.PlacedBodies | src/script.ts:332-339 | with distinct guids, every guid's body is at its placed position, unrotated, with its geometry's shape and its options |
| Scene.CounterGuids | src/script.ts:28 | counted guids are pairwise distinct |
| Scene.ScenePlaced | src/script.ts:167-182 | the scene with distinct guids: 405 reachable bodies, each where its mesh put it |
| Scene.WallPlaced | src/script.ts:271-304 | each wall's body is static, massless concrete at its placement |
| Scene.WallFace | src/script.ts:268-304 | a wall placed as described has its inner face at the cavity boundary |
| Scene.ContainerCavity | src/script.ts:262-304 | the inner faces lie at -/+containerWidth/2, +/-containerHeight/2 and half a thickness in front of -containerDepth/2 |
| Scene.SceneTrafficAsWritten | src/script.ts:28 | the scene traffic with random guids is well formed |
| Scene.SceneGuidCollisionOrphansBody | src/script.ts:28 | two draws with the same guid leave fewer dictionary keys than world bodies |
| Scene.SceneGuidCollisionExample | src/script.ts:28 | such draws exist: 0.5 and 0.500001 for the first two walls, 0.001, 0.002, ... for the other meshes |
| Scene.SceneTraffic | src/script.ts:28 | the scene's traffic with distinct guids is well formed |

## Left out

- The simulation step (`world.fixedStep()`), gravity and the contact material (src/worker.ts:13-22, 72): rigid-body integration in floating point. `Tick` takes the step as a parameter that keeps the number of bodies.
- `getWorld` (src/worker.ts:24-26): it only hands out the world object, and its one caller is commented out.
- The workerize proxy, promises, `.catch` logging and the `try`/`catch` around the pose push (src/script.ts:9-17, 39, 43-51): calls are modelled as requests applied in the order issued; a rejected call and a synchronous throw are not modelled.
- `console.error` / `console.log` output: only the values the functions return or store are modelled.
- The physics library's defaults for keys the options do not set (mass, body type, material): a body keeps those keys as absent.
- Floating point: every number is a `real`, so NaN and Infinity (a zero-size window, an image that failed to load) are outside the model; `OnResize` requires a positive window width and a non-negative window height.
- Worker.AddBody: requires the parameters to fit the tag (box parameters for the box tag, some parameters for the plane tag), which every mesh meets (Geometry.DerivedParametersMatch). The source casts blindly: a box tag with plane parameters would give a NaN z half-extent, and a plane or box tag with no parameters makes the destructuring throw, so the call rejects and registers nothing.
- Protocol.NewPhysicsMesh: the constructor's geometry argument is optional (src/script.ts:25); omitted, `getGeometryType(undefined)` gives `undefined` and reading `.parameters` of it throws inside the constructor (src/script.ts:34), before any `addBody`. Every mesh of the scene passes a geometry, so the model's geometry is always present.
- Geometry.Parameters: geometry classes other than plane and box (a sphere, say) carry their own `parameters` record; the model sends none for them, since the worker never reads parameters without a plane or box tag.
- Camera fitting (`moveCameraToFitBounds`, `fitCameraToCenteredObject`, src/utils.ts:52-126): trigonometry on floats and library objects.
- Renderer, orbit controls, lights, axes helper, force arrow, debug cube, texture loading and cloning, materials, shadows and the animation loop (src/script.ts:98-165, 224-254, 350-368, 427-439): UI and I/O.
- The commented-out worker message handling and the empty `updatePhysics` (src/script.ts:370-425): dead code. The render thread never calls the worker's `tick`.
- Rebuilding on resize: `onResize` re-runs `initSceneElements`, which removes the render objects but not the worker's bodies. The scene lemmas start from an empty worker; `ApplyAll`'s size contract gives the world's growth from any earlier state.
- Layout.OnResize: the scene width, border and depth fractions, gap fraction and grid size are the source's constants; the grid lemmas are stated for any grid size n >= 1.

## Findings

| source | as written | input that shows it | evidently intended | confidence | as-written member | corrected member |
|---|---|---|---|---|---|---|
| src/script.ts:194 | `image_ratio > window_ratio` compares the image's width/height with the window's height/width | window 2 by 1, image ratio 1: container height 50 against a scene height of 25 | width-limited exactly when the image is wider than the scene rectangle, so the container fits inside it | medium; not executed | Layout.OnResizeOverflowsScene | Layout.OnResizeFitted |
| src/script.ts:28 | each mesh draws its guid from 100000 values with no check for a repeat; 405 meshes are built | the first two walls drawing 0.5 and 0.500001 both get guid "50000"; the dictionary then holds fewer guids than the world holds bodies | one distinct guid per mesh | medium; not executed | Scene.SceneGuidCollisionOrphansBody | Scene.ScenePlaced |

For the fit test, `Layout.OnResize` is the as-written definition and
`Layout.OnResizeFitted` the corrected one; the wall and cube lemmas take
the layout as a parameter and hold for either. For the guids,
`Scene.SceneTrafficAsWritten` is the as-written traffic and
`Scene.SceneTraffic` (counted guids) the corrected traffic the scene lemmas
use. With 405 meshes and 100000 values, a repeat in one scene build has a
probability of roughly 1 - e^(-405*404/200000), about one half.

=== FILE: geometry.dfy ===
/** Geometry tagging (src/utils.ts): the render geometries the physics side
    understands, the tag sent across the worker boundary and the parameter
    record that travels with it. */
module Geometry {
  import opened Wrappers
  import opened Vectors

  /** GEOMETRY_TYPE. */
  datatype GeometryType = PlaneGeometryType | BoxGeometryType

  /** The render geometry a mesh is built from: a `THREE.PlaneGeometry`, a
      `THREE.BoxGeometry`, or any other `THREE.BufferGeometry`. */
  datatype RenderGeometry =
    | PlaneGeometry(width: real, height: real)
    | BoxGeometry(width: real, height: real, depth: real)
    | OtherGeometry

  /** The `parameters` record of a geometry as the worker sees it. A plain
      buffer geometry has none (`undefined`); other geometry classes carry
      records of their own, but the worker reads parameters only under a
      plane or box tag, so they are modelled as none too. */
  datatype GeometryParameters =
    | PlaneParameters(width: real, height: real)
    | BoxParameters(width: real, height: real, depth: real)
    | NoParameters

  /** getGeometryType: the tag of a plane or a box; any other geometry is
      reported on the console and yields `undefined`. */
  function GetGeometryType(g: RenderGeometry): (r: Option<GeometryType>)
    ensures r == Some(PlaneGeometryType) <==> g.PlaneGeometry?
    ensures r == Some(BoxGeometryType) <==> g.BoxGeometry?
    ensures r == None <==> g.OtherGeometry?
  {
    match g
    case PlaneGeometry(_, _) => Some(PlaneGeometryType)
    case BoxGeometry(_, _, _) => Some(BoxGeometryType)
    case OtherGeometry => None
  }

  /** The `geometry.parameters` read of a mesh's geometry; what a geometry
      without a plane or box tag carries is never read, and is sent as none. */
  function Parameters(g: RenderGeometry): (r: GeometryParameters)
    ensures g.OtherGeometry? <==> r.NoParameters?
    ensures !g.OtherGeometry? ==> r.width == g.width && r.height == g.height
    ensures g.BoxGeometry? ==> r.BoxParameters? && r.depth == g.depth
  {
    match g
    case PlaneGeometry(w, h) => PlaneParameters(w, h)
    case BoxGeometry(w, h, d) => BoxParameters(w, h, d)
    case OtherGeometry => NoParameters
  }

  /** What the worker's casts demand of a tag and the parameters sent with it:
      the plane branch reads `width` and `height`, the box branch also `depth`;
      with no tag the parameters are never read. */
  predicate ParametersMatch(tag: Option<GeometryType>, params: GeometryParameters) {
    match tag
    case Some(PlaneGeometryType) => !params.NoParameters?
    case Some(BoxGeometryType) => params.BoxParameters?
    case None => true
  }

  /** The tag and parameters a mesh derives from its own geometry always satisfy
      the worker's casts. */
  lemma DerivedParametersMatch(g: RenderGeometry)
    ensures ParametersMatch(GetGeometryType(g), Parameters(g))
  {
  }

  /** parametersToVec: the box dimensions as a vector, width to x, height to y,
      depth to z. */
  function ParametersToVec(p: GeometryParameters): (r: ThreeVector3)
    requires p.BoxParameters?
    ensures r.x == p.width && r.y == p.height && r.z == p.depth
  {
    ThreeVector3(p.width, p.height, p.depth)
  }
}

=== FILE: guid.dfy ===
/** Mesh identifiers (src/script.ts): `Math.floor(Math.random() * 100000) + ''`,
    the decimal text of a whole number below 100000. */
module Guid {

  const GUID_RANGE: nat := 100000

  predicate IsDigit(c: char) {
    '0' <= c <= '9'
  }

  predicate AllDigits(s: string) {
    forall i :: 0 <= i < |s| ==> IsDigit(s[i])
  }

  function DigitChar(d: nat): (c: char)
    requires d < 10
    ensures IsDigit(c)
  {
    ('0' as int + d) as char
  }

  function DigitValue(c: char): nat
    requires IsDigit(c)
  {
    c as int - '0' as int
  }

  /** The decimal text of a whole number, without leading zeros (JavaScript's
      number-to-string conversion for integers of this size). */
  function DecimalString(n: nat): (s: string)
    ensures 1 <= |s|
    ensures AllDigits(s)
    decreases n
  {
    if n < 10 then [DigitChar(n)] else DecimalString(n / 10) + [DigitChar(n % 10)]
  }

  /** Reads decimal text back as a number (a reference inverse of DecimalString). */
  function ParseDecimal(s: string): nat
    requires AllDigits(s)
    decreases |s|
  {
    if |s| == 0 then 0 else 10 * ParseDecimal(s[..|s| - 1]) + DigitValue(s[|s| - 1])
  }

  /** Reading back the text of a number gives the number. */
  lemma {:induction false} ParseDecimalString(n: nat)
    ensures ParseDecimal(DecimalString(n)) == n
    decreases n
  {
    var s := DecimalString(n);
    if n >= 10 {
      ParseDecimalString(n / 10);
      assert s[..|s| - 1] == DecimalString(n / 10);
    }
  }

  /** Distinct numbers have distinct texts. */
  lemma DecimalStringInjective(a: nat, b: nat)
    ensures DecimalString(a) == DecimalString(b) <==> a == b
  {
    if DecimalString(a) == DecimalString(b) {
      ParseDecimalString(a);
      ParseDecimalString(b);
    }
  }

  function Pow10(k: nat): nat {
    if k == 0 then 1 else 10 * Pow10(k - 1)
  }

  /** A number below 10^k has at most k digits. */
  lemma {:induction false} DecimalStringLength(n: nat, k: nat)
    requires 1 <= k && n < Pow10(k)
    ensures |DecimalString(n)| <= k
    decreases k
  {
    if n >= 10 {
      DecimalStringLength(n / 10, k - 1);
    }
  }

  /** The draw `Math.floor(random * 100000)` for a `Math.random()` value. */
  function Draw(random: real): (d: nat)
    requires 0.0 <= random < 1.0
    ensures d < GUID_RANGE
    ensures d as real <= random * 100000.0 < d as real + 1.0
  {
    (random * 100000.0).Floor
  }

  /** The guid a mesh takes at construction: the text of its draw, at most five
      digits, from which the draw can be read back. */
  function GuidFromRandom(random: real): (g: string)
    requires 0.0 <= random < 1.0
    ensures 1 <= |g| <= 5
    ensures AllDigits(g) && ParseDecimal(g) == Draw(random)
  {
    var d := Draw(random);
    ParseDecimalString(d);
    assert Pow10(5) == GUID_RANGE;
    DecimalStringLength(d, 5);
    DecimalString(d)
  }

  /** Two different random values can yield the same guid. */
  lemma DistinctRandomsCanShareGuid()
    ensures GuidFromRandom(0.5) == GuidFromRandom(0.500001)
  {
    assert Draw(0.5) == 50000;
    assert Draw(0.500001) == 50000;
  }
}

=== FILE: layout.dfy ===
/** The layout arithmetic of src/script.ts: the container and image sizes
    onResize derives from the window and the image's aspect ratio, the centres
    and sizes addImageCubes gives the grid of cubes, and the texture tile each
    cube shows. Lengths are scene units. */
module Layout {

  const SCENE_WIDTH: real := 50.0
  const CONTAINER_THICKNESS: real := 0.1
  const CONTAINER_BORDER_PERCENT: real := 0.1
  const SCENE_DEPTH_PERCENT: real := 0.2
  const GRID_SIZE: nat := 20
  const GRID_GAP_PERCENT: real := 0.003
  /** The image cubes are half as deep as the container. */
  const IMAGE_DEPTH_FACTOR: real := 0.5

  /** The fields onResize writes. */
  datatype Layout = Layout(
    windowRatio: real,
    sceneHeight: real,
    containerWidth: real,
    containerHeight: real,
    containerDepth: real,
    imageWidth: real,
    imageHeight: real)

  /** The image area: the container less a border whose width is a fixed
      fraction of the container's width, taken off both dimensions. */
  function WithImageArea(l: Layout): (r: Layout)
    ensures r.containerWidth - r.imageWidth == r.containerWidth * CONTAINER_BORDER_PERCENT
    ensures r.containerHeight - r.imageHeight == r.containerWidth * CONTAINER_BORDER_PERCENT
    ensures r.(imageWidth := l.imageWidth, imageHeight := l.imageHeight) == l
  {
    l.(imageWidth := l.containerWidth - l.containerWidth * CONTAINER_BORDER_PERCENT,
       imageHeight := l.containerHeight - l.containerWidth * CONTAINER_BORDER_PERCENT)
  }

  /** onResize, as written. `windowRatio` is height over width of the window
      while `imageRatio` is width over height of the image, and the fit branch
      compares the two. The depth is computed while the container width still
      equals the scene width. */
  function OnResize(windowWidth: real, windowHeight: real, imageRatio: real): (l: Layout)
    requires windowWidth > 0.0 && windowHeight >= 0.0
    ensures l.windowRatio * windowWidth == windowHeight
    ensures l.sceneHeight == SCENE_WIDTH * l.windowRatio
    ensures l.containerWidth == imageRatio * l.containerHeight
    ensures imageRatio > 0.0 && windowHeight > 0.0 ==>
              l.containerHeight > 0.0 && l.containerWidth / l.containerHeight == imageRatio
    ensures imageRatio > l.windowRatio ==> l.containerWidth == SCENE_WIDTH
    ensures imageRatio <= l.windowRatio ==> l.containerHeight == l.sceneHeight
    ensures l.containerDepth == SCENE_WIDTH * SCENE_DEPTH_PERCENT + CONTAINER_THICKNESS
    ensures l.containerWidth - l.imageWidth == l.containerWidth * CONTAINER_BORDER_PERCENT
    ensures l.containerHeight - l.imageHeight == l.containerWidth * CONTAINER_BORDER_PERCENT
  {
    var windowRatio := windowHeight / windowWidth;
    var sceneHeight := SCENE_WIDTH * windowRatio;
    var widthBeforeFit := SCENE_WIDTH;
    var depth := widthBeforeFit * SCENE_DEPTH_PERCENT + CONTAINER_THICKNESS;
    var fitted :=
      if imageRatio > windowRatio then
        Layout(windowRatio, sceneHeight, SCENE_WIDTH, SCENE_WIDTH / imageRatio, depth, 0.0, 0.0)
      else
        Layout(windowRatio, sceneHeight, sceneHeight * imageRatio, sceneHeight, depth, 0.0, 0.0);
    assert imageRatio > 0.0 && windowHeight > 0.0 ==> fitted.containerHeight > 0.0 by {
      if imageRatio > 0.0 && windowHeight > 0.0 {
        assert windowRatio > 0.0;
      }
    }
    WithImageArea(fitted)
  }

  /** As written, the container can overflow the scene rectangle: for a 2:1
      window and a square image it is twice as tall as the scene. */
  lemma OnResizeOverflowsScene()
    ensures var l := OnResize(2.0, 1.0, 1.0);
            l.sceneHeight == 25.0 && l.containerHeight == 50.0 && l.containerHeight > l.sceneHeight
  {
  }

  lemma QuotientAtMost(a: real, b: real, c: real)
    requires b > 0.0 && a <= b * c
    ensures a / b <= c
  {
    assert (a / b) * b == a;
    assert (a / b - c) * b <= 0.0;
  }

  /** onResize with the fit test comparing like with like: the image is
      width-limited exactly when it is wider than the scene rectangle. */
  function OnResizeFitted(windowWidth: real, windowHeight: real, imageRatio: real): (l: Layout)
    requires windowWidth > 0.0 && windowHeight >= 0.0
    ensures l.windowRatio * windowWidth == windowHeight
    ensures l.sceneHeight == SCENE_WIDTH * l.windowRatio
    ensures l.containerWidth == imageRatio * l.containerHeight
    ensures imageRatio > 0.0 ==>
              && 0.0 <= l.containerWidth <= SCENE_WIDTH
              && 0.0 <= l.containerHeight <= l.sceneHeight
    ensures l.containerWidth == SCENE_WIDTH || l.containerHeight == l.sceneHeight
    ensures l.containerDepth == SCENE_WIDTH * SCENE_DEPTH_PERCENT + CONTAINER_THICKNESS
    ensures l.containerWidth - l.imageWidth == l.containerWidth * CONTAINER_BORDER_PERCENT
    ensures l.containerHeight - l.imageHeight == l.containerWidth * CONTAINER_BORDER_PERCENT
  {
    var windowRatio := windowHeight / windowWidth;
    var sceneHeight := SCENE_WIDTH * windowRatio;
    var depth := SCENE_WIDTH * SCENE_DEPTH_PERCENT + CONTAINER_THICKNESS;
    assert windowRatio >= 0.0;
    assert imageRatio > 0.0 && imageRatio * sceneHeight > SCENE_WIDTH ==>
             SCENE_WIDTH / imageRatio <= sceneHeight by {
      if imageRatio > 0.0 && imageRatio * sceneHeight > SCENE_WIDTH {
        QuotientAtMost(SCENE_WIDTH, imageRatio, sceneHeight);
      }
    }
    var fitted :=
      if imageRatio * sceneHeight > SCENE_WIDTH then
        Layout(windowRatio, sceneHeight, SCENE_WIDTH, SCENE_WIDTH / imageRatio, depth, 0.0, 0.0)
      else
        Layout(windowRatio, sceneHeight, sceneHeight * imageRatio, sceneHeight, depth, 0.0, 0.0);
    WithImageArea(fitted)
  }

  /** The gap between neighbouring cubes, a fraction of the image width (used
      in both directions). */
  function GapSize(l: Layout): real {
    l.imageWidth * GRID_GAP_PERCENT
  }

  /** The gaps across one row or column of an n-by-n grid. */
  function TotalGapSize(l: Layout, n: nat): real {
    (if n >= 1 then n - 1 else 0) as real * GapSize(l)
  }

  function ColSize(l: Layout, n: nat): real
    requires n > 0
  {
    (l.imageWidth - TotalGapSize(l, n)) / n as real
  }

  function RowSize(l: Layout, n: nat): real
    requires n > 0
  {
    (l.imageHeight - TotalGapSize(l, n)) / n as real
  }

  function ImageDepth(l: Layout): real {
    l.containerDepth * IMAGE_DEPTH_FACTOR
  }

  /** The centre of cell k along one axis of extent w, centred on 0, with
      cells of size `cell` and gaps of size `gap`. */
  function CellCenter(w: real, cell: real, gap: real, k: nat): real {
    -w / 2.0 + cell * (k + 1) as real + gap * k as real - cell / 2.0
  }

  /** The x of the centre of the cubes in column c. */
  function CubeCenterX(l: Layout, n: nat, c: nat): real
    requires n > 0
  {
    CellCenter(l.imageWidth, ColSize(l, n), GapSize(l), c)
  }

  /** The y of the centre of the cubes in row r. */
  function CubeCenterY(l: Layout, n: nat, r: nat): real
    requires n > 0
  {
    CellCenter(l.imageHeight, RowSize(l, n), GapSize(l), r)
  }

  /** Neighbouring columns are one cube width plus one gap apart, and so are
      neighbouring rows (one cube height plus one gap). */
  lemma CubeSpacing(l: Layout, n: nat, k: nat)
    requires n > 0
    ensures CubeCenterX(l, n, k + 1) - CubeCenterX(l, n, k) == ColSize(l, n) + GapSize(l)
    ensures CubeCenterY(l, n, k + 1) - CubeCenterY(l, n, k) == RowSize(l, n) + GapSize(l)
  {
  }

  /** n cubes and n - 1 gaps make up exactly the image width (and height). */
  lemma GridFillsImage(l: Layout, n: nat)
    requires n > 0
    ensures n as real * ColSize(l, n) + (n - 1) as real * GapSize(l) == l.imageWidth
    ensures n as real * RowSize(l, n) + (n - 1) as real * GapSize(l) == l.imageHeight
  {
    var k := n as real;
    assert k * ((l.imageWidth - TotalGapSize(l, n)) / k) == l.imageWidth - TotalGapSize(l, n);
    assert k * ((l.imageHeight - TotalGapSize(l, n)) / k) == l.imageHeight - TotalGapSize(l, n);
  }

  /** The grid spans the image exactly: the first column's left edge is at
      -imageWidth/2 and the last column's right edge at +imageWidth/2; rows
      likewise with the image height. */
  lemma GridSpansImage(l: Layout, n: nat)
    requires n > 0
    ensures CubeCenterX(l, n, 0) - ColSize(l, n) / 2.0 == -l.imageWidth / 2.0
    ensures CubeCenterX(l, n, n - 1) + ColSize(l, n) / 2.0 == l.imageWidth / 2.0
    ensures CubeCenterY(l, n, 0) - RowSize(l, n) / 2.0 == -l.imageHeight / 2.0
    ensures CubeCenterY(l, n, n - 1) + RowSize(l, n) / 2.0 == l.imageHeight / 2.0
  {
    GridFillsImage(l, n);
  }

  /** One axis of the grid: with n cells separated by n - 1 gaps filling the
      extent w, every cell lies within [-w/2, w/2]. */
  lemma AxisCellWithin(w: real, n: nat, cell: real, gap: real, k: nat)
    requires k < n && w >= 0.0 && gap >= 0.0
    requires n as real * cell + (n - 1) as real * gap == w
    ensures -w / 2.0 <= CellCenter(w, cell, gap, k) - cell / 2.0
    ensures CellCenter(w, cell, gap, k) + cell / 2.0 <= w / 2.0
  {
    var step := cell + gap;
    assert n as real * step == w + gap;
    assert step >= 0.0;
    assert k as real * step >= 0.0;
    var rest := (n - 1 - k) as real;
    assert rest * step >= 0.0;
    assert k as real * step + step + rest * step == n as real * step;
    assert CellCenter(w, cell, gap, k) - cell / 2.0 == -w / 2.0 + k as real * step;
  }

  /** With a non-negative image width every column lies within the image,
      and so does every row given a non-negative image height. */
  lemma CubeWithinImage(l: Layout, n: nat, c: nat, r: nat)
    requires n > 0 && c < n && r < n
    requires l.imageWidth >= 0.0 && l.imageHeight >= 0.0
    ensures -l.imageWidth / 2.0 <= CubeCenterX(l, n, c) - ColSize(l, n) / 2.0
    ensures CubeCenterX(l, n, c) + ColSize(l, n) / 2.0 <= l.imageWidth / 2.0
    ensures -l.imageHeight / 2.0 <= CubeCenterY(l, n, r) - RowSize(l, n) / 2.0
    ensures CubeCenterY(l, n, r) + RowSize(l, n) / 2.0 <= l.imageHeight / 2.0
  {
    GridFillsImage(l, n);
    AxisCellWithin(l.imageWidth, n, ColSize(l, n), GapSize(l), c);
    AxisCellWithin(l.imageHeight, n, RowSize(l, n), GapSize(l), r);
  }

  /** The texture repeat of every tile: one n-th of the image each way. */
  function TileRepeat(n: nat): real
    requires n > 0
  {
    1.0 / n as real
  }

  /** The texture offset of column (or row) k. */
  function TileOffset(n: nat, k: nat): real
    requires n > 0
  {
    k as real / n as real
  }

  /** The tiles of one row (or column) lie in [0, 1], start at 0, end at 1 and
      abut: each tile ends where the next begins. */
  lemma TilesTileUnitInterval(n: nat, k: nat)
    requires n > 0 && k < n
    ensures 0.0 <= TileOffset(n, k) && TileOffset(n, k) + TileRepeat(n) <= 1.0
    ensures TileOffset(n, k) + TileRepeat(n) == TileOffset(n, k + 1)
    ensures TileOffset(n, 0) == 0.0 && TileOffset(n, n - 1) + TileRepeat(n) == 1.0
  {
    var m := n as real;
    assert TileOffset(n, k) + TileRepeat(n) == (k + 1) as real / m;
    assert (k + 1) as real <= m;
    assert TileOffset(n, n - 1) + TileRepeat(n) == m / m;
  }

  /** Distinct tiles of one row (or column) do not overlap. */
  lemma TilesDisjoint(n: nat, j: nat, k: nat)
    requires n > 0 && j < k < n
    ensures TileOffset(n, j) + TileRepeat(n) <= TileOffset(n, k)
  {
    var m := n as real;
    assert TileOffset(n, j) + TileRepeat(n) == (j + 1) as real / m;
    assert (j + 1) as real <= k as real;
  }
}

=== FILE: protocol.dfy ===
/** The traffic between the render thread and the physics worker, and the
    render-side `PhysicsMesh` of src/script.ts.

    Every call a mesh makes on the worker proxy becomes a `Request`; the worker
    applies them one after another in the order they were issued. The main
    result here is per-entity isolation: what the worker holds for a guid
    depends only on the requests for that guid, in their order, whatever the
    other meshes' requests are and however they interleave. */
module Protocol {
  import opened Wrappers
  import opened Vectors
  import opened Geometry
  import opened Worker

  /** A call on the worker proxy. */
  datatype Request =
    | AddBodyRequest(guid: string, tag: Option<GeometryType>, params: GeometryParameters,
                     position: SimplePosition, quaternion: SimpleQuaternion, opts: BodyOptions)
    | UpdateRequest(guid: string, position: SimplePosition, quaternion: SimpleQuaternion)

  /** An addBody call whose parameters fit its tag, as the worker's casts demand. */
  predicate WellFormed(req: Request) {
    req.AddBodyRequest? ==> ParametersMatch(req.tag, req.params)
  }

  predicate AllWellFormed(reqs: seq<Request>) {
    forall i :: 0 <= i < |reqs| ==> WellFormed(reqs[i])
  }

  /** The worker handling one call. */
  function Apply(reg: Registry, req: Request): Registry
    requires WellFormed(req)
  {
    match req
    case AddBodyRequest(guid, tag, params, p, q, opts) => AddBody(reg, guid, tag, params, p, q, opts)
    case UpdateRequest(guid, p, q) => UpdateBodyPositionQuaternion(reg, guid, p, q)
  }

  /** How many of the calls are addBody calls. */
  function AddCount(reqs: seq<Request>): nat {
    if |reqs| == 0 then 0 else (if reqs[0].AddBodyRequest? then 1 else 0) + AddCount(reqs[1..])
  }

  /** The guids the addBody calls register. */
  function AddedGuids(reqs: seq<Request>): set<string> {
    if |reqs| == 0 then {} else (if reqs[0].AddBodyRequest? then {reqs[0].guid} else {}) + AddedGuids(reqs[1..])
  }

  /** The worker handling the calls in the order they were issued. The world
      gains one body per addBody call and nothing else; the dictionary gains
      exactly the guids those calls name. */
  function ApplyAll(reg: Registry, reqs: seq<Request>): (r: Registry)
    requires AllWellFormed(reqs)
    ensures |r.world| == |reg.world| + AddCount(reqs)
    ensures r.bodies.Keys == reg.bodies.Keys + AddedGuids(reqs)
    ensures Valid(reg) ==> Valid(r)
    decreases |reqs|
  {
    if |reqs| == 0 then reg else ApplyAll(Apply(reg, reqs[0]), reqs[1..])
  }

  /** What one call does to the body of the guid it names, seen on its own:
      addBody builds a new body whatever was there; an update teleports the
      body if there is one and otherwise does nothing. */
  function EntityStep(b: Option<Body>, req: Request): Option<Body>
    requires WellFormed(req)
  {
    match req
    case AddBodyRequest(_, tag, params, p, q, opts) => Some(NewBody(ShapeFor(tag, params), p, q, opts))
    case UpdateRequest(_, p, q) => if b.Some? then Some(Teleport(b.value, p, q)) else None
  }

  /** The reference semantics of one entity: its calls applied in order. */
  function EntityFold(b: Option<Body>, reqs: seq<Request>): Option<Body>
    requires AllWellFormed(reqs)
    decreases |reqs|
  {
    if |reqs| == 0 then b else EntityFold(EntityStep(b, reqs[0]), reqs[1..])
  }

  /** The calls that name the given guid, in their original order. */
  function RequestsFor(reqs: seq<Request>, guid: string): (r: seq<Request>)
    ensures |r| <= |reqs|
    ensures forall i :: 0 <= i < |r| ==> r[i].guid == guid
    ensures AllWellFormed(reqs) ==> AllWellFormed(r)
    decreases |reqs|
  {
    if |reqs| == 0 then []
    else (if reqs[0].guid == guid then [reqs[0]] else []) + RequestsFor(reqs[1..], guid)
  }

  /** One call changes the body of its own guid as EntityStep says and leaves
      the body of every other guid alone. */
  lemma ApplyLookup(reg: Registry, req: Request, guid: string)
    requires Valid(reg) && WellFormed(req)
    ensures Lookup(Apply(reg, req), guid)
            == if req.guid == guid then EntityStep(Lookup(reg, guid), req) else Lookup(reg, guid)
  {
  }

  /** Per-entity isolation: after any sequence of calls, the body registered
      under a guid is the one obtained by applying only that guid's calls, so
      calls for other guids, and their interleaving, do not matter. */
  lemma {:induction false} PerEntityIsolation(reg: Registry, reqs: seq<Request>, guid: string)
    requires Valid(reg) && AllWellFormed(reqs)
    ensures Lookup(ApplyAll(reg, reqs), guid) == EntityFold(Lookup(reg, guid), RequestsFor(reqs, guid))
    decreases |reqs|
  {
    if |reqs| > 0 {
      var next := Apply(reg, reqs[0]);
      ApplyLookup(reg, reqs[0], guid);
      PerEntityIsolation(next, reqs[1..], guid);
      if reqs[0].guid == guid {
        var mine := RequestsFor(reqs, guid);
        assert mine == [reqs[0]] + RequestsFor(reqs[1..], guid);
        assert mine[1..] == RequestsFor(reqs[1..], guid);
      } else {
        assert RequestsFor(reqs, guid) == RequestsFor(reqs[1..], guid);
      }
    }
  }

  predicate AllUpdates(reqs: seq<Request>) {
    forall i :: 0 <= i < |reqs| ==> reqs[i].UpdateRequest?
  }

  /** After a run of updates an existing body sits at the pose of the last one,
      with everything else it had kept. */
  lemma {:induction false} UpdatesLeaveLastPose(b: Body, ups: seq<Request>)
    requires |ups| > 0 && AllUpdates(ups)
    ensures AllWellFormed(ups)
    ensures EntityFold(Some(b), ups) == Some(Teleport(b, ups[|ups| - 1].position, ups[|ups| - 1].quaternion))
    decreases |ups|
  {
    if |ups| > 1 {
      var b1 := Teleport(b, ups[0].position, ups[0].quaternion);
      UpdatesLeaveLastPose(b1, ups[1..]);
    }
  }

  /** Updates that reach the worker before any addBody for their guid are lost. */
  lemma {:induction false} UpdatesBeforeRegistrationDropped(ups: seq<Request>)
    requires AllUpdates(ups)
    ensures AllWellFormed(ups)
    ensures EntityFold(None, ups) == None
    decreases |ups|
  {
    if |ups| > 0 {
      UpdatesBeforeRegistrationDropped(ups[1..]);
    }
  }

  /** The render-side mesh: its guid, its geometry and its own pose. */
  datatype PhysicsMesh = PhysicsMesh(guid: string, geometry: RenderGeometry,
                                     position: ThreeVector3, quaternion: ThreeQuaternion)

  /** The PhysicsMesh constructor: a mesh at the default pose, and the one
      addBody call it issues with that pose, the tag and parameters of its
      geometry and the caller's physics options. */
  function NewPhysicsMesh(guid: string, opts: BodyOptions, geometry: RenderGeometry): (r: (PhysicsMesh, Request))
    ensures r.0.guid == guid && r.0.geometry == geometry
    ensures r.0.position == ThreeOrigin && r.0.quaternion == ThreeIdentity
    ensures r.1.AddBodyRequest? && r.1.guid == guid && r.1.opts == opts && WellFormed(r.1)
    ensures r.1.tag == GetGeometryType(geometry) && r.1.params == Parameters(geometry)
    ensures CannonToThreeVec(CopyToCannonVec(r.1.position)) == r.0.position
    ensures CannonToThreeQuaternion(CopyToCannonQuaternion(r.1.quaternion)) == r.0.quaternion
  {
    var mesh := PhysicsMesh(guid, geometry, ThreeOrigin, ThreeIdentity);
    DerivedParametersMatch(geometry);
    var add := AddBodyRequest(guid, GetGeometryType(geometry), Parameters(geometry),
                              SimplifyPosition(FromThree(mesh.position)),
                              SimplifyQuaternion(FromThreeQuat(mesh.quaternion)), opts);
    (mesh, add)
  }

  /** `mesh.position.set(x, y, z)`. */
  function SetPosition(mesh: PhysicsMesh, position: ThreeVector3): PhysicsMesh {
    mesh.(position := position)
  }

  /** PhysicsMesh.updateBodyPositionQuaternion: the update call carrying the
      mesh's current pose; the pose the worker stores from it converts back to
      exactly the mesh's pose. */
  function PushPose(mesh: PhysicsMesh): (r: Request)
    ensures r.UpdateRequest? && r.guid == mesh.guid && WellFormed(r)
    ensures CannonToThreeVec(CopyToCannonVec(r.position)) == mesh.position
    ensures CannonToThreeQuaternion(CopyToCannonQuaternion(r.quaternion)) == mesh.quaternion
  {
    UpdateRequest(mesh.guid, SimplifyPosition(FromThree(mesh.position)),
                  SimplifyQuaternion(FromThreeQuat(mesh.quaternion)))
  }

  /** PhysicsMesh.setMeshPosQuatFromBody: the mesh takes the body's pose and
      keeps its identity and geometry. */
  function SetMeshPosQuatFromBody(mesh: PhysicsMesh, body: Body): (r: PhysicsMesh)
    ensures r.guid == mesh.guid && r.geometry == mesh.geometry
    ensures ThreeToCannonVec(r.position) == body.position
    ensures r.quaternion.x == body.quaternion.x && r.quaternion.y == body.quaternion.y
    ensures r.quaternion.z == body.quaternion.z && r.quaternion.w == body.quaternion.w
  {
    mesh.(position := CannonToThreeVec(body.position), quaternion := CannonToThreeQuaternion(body.quaternion))
  }

  /** Pushing a mesh's pose into a body and pulling the body's pose back onto
      the mesh leaves the mesh as it was. */
  lemma PushThenPullIsIdentity(mesh: PhysicsMesh, body: Body)
    ensures var push := PushPose(mesh);
            SetMeshPosQuatFromBody(mesh, Teleport(body, push.position, push.quaternion)) == mesh
  {
  }

  /** The life of one mesh: its one addBody call followed by pose pushes, seen
      among any other traffic delivered in order. The worker's body for the
      guid is the newly built body moved to the last pushed pose (or, when
      nothing was pushed, at the pose the options give or else the
      construction pose), and pulling it back onto
      the mesh that made the last push reproduces that mesh. */
  lemma MeshEndsAtLastPush(reg: Registry, reqs: seq<Request>, mesh: PhysicsMesh, opts: BodyOptions,
                           pushed: seq<PhysicsMesh>)
    requires Valid(reg) && AllWellFormed(reqs)
    requires forall i :: 0 <= i < |pushed| ==> pushed[i].guid == mesh.guid
    requires RequestsFor(reqs, mesh.guid)
             == [NewPhysicsMesh(mesh.guid, opts, mesh.geometry).1] + seq(|pushed|, i requires 0 <= i < |pushed| => PushPose(pushed[i]))
    ensures var b := Lookup(ApplyAll(reg, reqs), mesh.guid);
            && b.Some?
            && b.value.shape == (if opts.shape.Some? then opts.shape
                                 else ShapeFor(GetGeometryType(mesh.geometry), Parameters(mesh.geometry)))
            && b.value.mass == opts.mass && b.value.bodyType == opts.bodyType && b.value.material == opts.material
            && (|pushed| > 0 ==> SetMeshPosQuatFromBody(pushed[|pushed| - 1], b.value) == pushed[|pushed| - 1])
            && (|pushed| == 0 ==>
                  && b.value.position == opts.position.GetOr(ThreeToCannonVec(ThreeOrigin))
                  && b.value.quaternion == opts.quaternion.GetOr(CannonQuaternion(0.0, 0.0, 0.0, 1.0)))
  {
    var add := NewPhysicsMesh(mesh.guid, opts, mesh.geometry).1;
    var ups := seq(|pushed|, i requires 0 <= i < |pushed| => PushPose(pushed[i]));
    var mine := [add] + ups;
    PerEntityIsolation(reg, reqs, mesh.guid);
    var built := NewBody(ShapeFor(add.tag, add.params), add.position, add.quaternion, opts);
    assert mine[1..] == ups;
    assert EntityFold(Lookup(reg, mesh.guid), mine) == EntityFold(Some(built), ups);
    if |pushed| > 0 {
      UpdatesLeaveLastPose(built, ups);
      var last := pushed[|pushed| - 1];
      PushThenPullIsIdentity(last, built);
    }
  }
}

=== FILE: scene.dfy ===
/** The scene the render thread builds (src/script.ts, addContainer and
    addImageCubes): five static walls and a grid of dynamic cubes, each a
    PhysicsMesh that registers itself, is moved into place and pushes that
    pose to the worker.

    Two ways of naming the meshes are modelled. The program draws each guid
    at random from 100000 values and never checks for a repeat
    (`SceneTrafficAsWritten`); two meshes that draw the same guid leave the
    dictionary with fewer entries than the world has bodies. `SceneTraffic`
    gives the meshes distinct guids, and under it every body ends where its
    mesh placed it. */
module Scene {
  import opened Wrappers
  import opened Vectors
  import opened Geometry
  import opened Worker
  import opened Guid
  import opened Protocol
  import opened Layout

  /** What the scene code decides for one mesh: its physics options, its
      geometry and where it is moved after construction. */
  datatype Placement = Placement(opts: BodyOptions, geometry: RenderGeometry, position: ThreeVector3)

  /** The walls are static, massless concrete. */
  const ContainerOptions: BodyOptions := BodyOptions(None, None, None, Some(0.0), Some(Static), Some(Concrete))
  /** The cubes have unit mass and are plastic. */
  const CubeOptions: BodyOptions := BodyOptions(None, None, None, Some(1.0), None, Some(Plastic))

  /** addContainer: back, left, right, top and bottom walls, in that order.
      The outer size adds one wall thickness to the container's width and
      height. */
  function ContainerWalls(l: Layout): (r: seq<Placement>)
    ensures |r| == 5
    ensures forall i :: 0 <= i < |r| ==> r[i].opts == ContainerOptions && r[i].geometry.BoxGeometry?
  {
    var t := CONTAINER_THICKNESS;
    var totalWidth := l.containerWidth + t;
    var totalHeight := l.containerHeight + t;
    var d := l.containerDepth;
    [ Placement(ContainerOptions, BoxGeometry(totalWidth, totalHeight, t), ThreeVector3(0.0, 0.0, -d / 2.0)),
      Placement(ContainerOptions, BoxGeometry(t, totalHeight, d), ThreeVector3(-totalWidth / 2.0, 0.0, 0.0)),
      Placement(ContainerOptions, BoxGeometry(t, totalHeight, d), ThreeVector3(totalWidth / 2.0, 0.0, 0.0)),
      Placement(ContainerOptions, BoxGeometry(totalWidth, t, d), ThreeVector3(0.0, totalHeight / 2.0, 0.0)),
      Placement(ContainerOptions, BoxGeometry(totalWidth, t, d), ThreeVector3(0.0, -totalHeight / 2.0, 0.0)) ]
  }

  /** The cube of column c and row r. */
  function CubePlacement(l: Layout, n: nat, c: nat, r: nat): Placement
    requires n > 0
  {
    Placement(CubeOptions, BoxGeometry(ColSize(l, n), RowSize(l, n), ImageDepth(l)),
              ThreeVector3(CubeCenterX(l, n, c), CubeCenterY(l, n, r), 0.0))
  }

  /** A multiple of n strictly between -n and n is zero. */
  lemma SmallMultipleIsZero(d: int, n: nat)
    requires -(n as int) < d * n < n
    ensures d == 0
  {
  }

  /** Index c * n + r of a column-major n-by-n grid is column c, row r. */
  lemma GridIndex(n: nat, c: nat, r: nat)
    requires c < n && r < n
    ensures c * n + r < n * n
    ensures (c * n + r) / n == c && (c * n + r) % n == r
  {
    var k := c * n + r;
    assert n * n == (c + 1) * n + (n - c - 1) * n;
    assert (n - c - 1) * n >= 0;
    var q := k / n;
    var m := k % n;
    assert k == q * n + m;
    assert (c - q) * n == m - r;
    SmallMultipleIsZero(c - q, n);
  }

  /** addImageCubes: columns in the outer loop, rows in the inner one. */
  function CubePlacements(l: Layout, n: nat): (r: seq<Placement>)
    requires n > 0
    ensures |r| == n * n
  {
    seq(n * n, k requires 0 <= k < n * n => CubePlacement(l, n, k / n, k % n))
  }

  /** The cube of column c and row r is the (c * n + r)-th mesh built, so
      every cell of the grid is built, once. */
  lemma CubeOfCell(l: Layout, n: nat, c: nat, row: nat)
    requires c < n && row < n
    ensures c * n + row < |CubePlacements(l, n)|
    ensures CubePlacements(l, n)[c * n + row] == CubePlacement(l, n, c, row)
  {
    var k := c * n + row;
    GridIndex(n, c, row);
    assert CubePlacements(l, n)[k] == CubePlacement(l, n, k / n, k % n);
  }

  /** Every cube built lies within the image rectangle: its box spans no
      further than -/+imageWidth/2 across and -/+imageHeight/2 up. */
  lemma CubesWithinImage(l: Layout, n: nat, c: nat, row: nat)
    requires c < n && row < n && l.imageWidth >= 0.0 && l.imageHeight >= 0.0
    ensures c * n + row < |CubePlacements(l, n)|
    ensures var p := CubePlacements(l, n)[c * n + row];
            && p.geometry.BoxGeometry?
            && -l.imageWidth / 2.0 <= p.position.x - p.geometry.width / 2.0
            && p.position.x + p.geometry.width / 2.0 <= l.imageWidth / 2.0
            && -l.imageHeight / 2.0 <= p.position.y - p.geometry.height / 2.0
            && p.position.y + p.geometry.height / 2.0 <= l.imageHeight / 2.0
  {
    CubeOfCell(l, n, c, row);
    CubeWithinImage(l, n, c, row);
  }

  /** initSceneElements: the container first, then the cubes. */
  function ScenePlacements(l: Layout): (r: seq<Placement>)
    ensures |r| == 5 + GRID_SIZE * GRID_SIZE
    ensures r[..5] == ContainerWalls(l)
    ensures r[5..] == CubePlacements(l, GRID_SIZE)
  {
    ContainerWalls(l) + CubePlacements(l, GRID_SIZE)
  }

  /** The traffic of one mesh: the addBody of its constructor, then the push
      after `position.set`. */
  function MeshTraffic(guid: string, p: Placement): (r: seq<Request>)
    ensures |r| == 2 && r[0].AddBodyRequest? && r[1].UpdateRequest?
    ensures r[0].guid == guid && r[1].guid == guid
    ensures AllWellFormed(r)
  {
    var (mesh, add) := NewPhysicsMesh(guid, p.opts, p.geometry);
    [add, PushPose(SetPosition(mesh, p.position))]
  }

  /** The set of guids of a list. */
  function GuidSet(guids: seq<string>): (r: set<string>)
    ensures forall g :: g in r <==> g in guids
    decreases |guids|
  {
    if |guids| == 0 then {} else {guids[0]} + GuidSet(guids[1..])
  }

  predicate Distinct(guids: seq<string>) {
    forall i, j :: 0 <= i < j < |guids| ==> guids[i] != guids[j]
  }

  lemma {:induction false} AddCountConcat(a: seq<Request>, b: seq<Request>)
    ensures AddCount(a + b) == AddCount(a) + AddCount(b)
    ensures AddedGuids(a + b) == AddedGuids(a) + AddedGuids(b)
    decreases |a|
  {
    if |a| == 0 {
      assert a + b == b;
    } else {
      assert (a + b)[0] == a[0];
      assert (a + b)[1..] == a[1..] + b;
      AddCountConcat(a[1..], b);
    }
  }

  lemma {:induction false} RequestsForConcat(a: seq<Request>, b: seq<Request>, guid: string)
    ensures RequestsFor(a + b, guid) == RequestsFor(a, guid) + RequestsFor(b, guid)
    decreases |a|
  {
    if |a| == 0 {
      assert a + b == b;
    } else {
      assert (a + b)[0] == a[0];
      assert (a + b)[1..] == a[1..] + b;
      RequestsForConcat(a[1..], b, guid);
    }
  }

  /** The traffic of a list of meshes, one after another: each mesh adds one
      body and registers its own guid. */
  function Traffic(guids: seq<string>, ps: seq<Placement>): (r: seq<Request>)
    requires |guids| == |ps|
    ensures AllWellFormed(r)
    ensures AddCount(r) == |ps|
    ensures AddedGuids(r) == GuidSet(guids)
    decreases |ps|
  {
    if |ps| == 0 then []
    else
      var head := MeshTraffic(guids[0], ps[0]);
      var rest := Traffic(guids[1..], ps[1..]);
      AddCountConcat(head, rest);
      assert head[1..][1..] == [];
      head + rest
  }

  lemma {:induction false} RequestsForMeshTraffic(h: string, p: Placement, guid: string)
    ensures RequestsFor(MeshTraffic(h, p), guid) == if h == guid then MeshTraffic(h, p) else []
  {
    var m := MeshTraffic(h, p);
    assert m[1..][1..] == [];
    assert m == [m[0]] + [m[1]];
  }

  /** In the traffic of meshes with distinct guids, the calls for one mesh's
      guid are exactly that mesh's own two calls. */
  lemma {:induction false} RequestsForTraffic(guids: seq<string>, ps: seq<Placement>, k: nat)
    requires |guids| == |ps| && Distinct(guids) && k < |ps|
    ensures RequestsFor(Traffic(guids, ps), guids[k]) == MeshTraffic(guids[k], ps[k])
    decreases |ps|
  {
    var g := guids[k];
    RequestsForConcat(MeshTraffic(guids[0], ps[0]), Traffic(guids[1..], ps[1..]), g);
    RequestsForMeshTraffic(guids[0], ps[0], g);
    if k == 0 {
      RequestsForAbsent(guids[1..], ps[1..], g);
    } else {
      RequestsForTraffic(guids[1..], ps[1..], k - 1);
    }
  }

  lemma {:induction false} RequestsForAbsent(guids: seq<string>, ps: seq<Placement>, guid: string)
    requires |guids| == |ps| && guid !in guids
    ensures RequestsFor(Traffic(guids, ps), guid) == []
    decreases |ps|
  {
    if |ps| > 0 {
      RequestsForConcat(MeshTraffic(guids[0], ps[0]), Traffic(guids[1..], ps[1..]), guid);
      RequestsForMeshTraffic(guids[0], ps[0], guid);
      RequestsForAbsent(guids[1..], ps[1..], guid);
    }
  }

  lemma {:induction false} DistinctGuidSetSize(guids: seq<string>)
    requires Distinct(guids)
    ensures |GuidSet(guids)| == |guids|
    decreases |guids|
  {
    if |guids| > 0 {
      assert guids[0] !in guids[1..];
      DistinctGuidSetSize(guids[1..]);
    }
  }

  lemma {:induction false} GuidSetSize(guids: seq<string>)
    ensures |GuidSet(guids)| <= |guids|
    decreases |guids|
  {
    if |guids| > 0 {
      GuidSetSize(guids[1..]);
    }
  }

  /** A list with a repeated guid has fewer distinct guids than entries. */
  lemma {:induction false} RepeatedGuidSetSmaller(guids: seq<string>, i: nat, j: nat)
    requires i < j < |guids| && guids[i] == guids[j]
    ensures |GuidSet(guids)| < |guids|
    decreases |guids|
  {
    if i == 0 {
      assert guids[0] == guids[1..][j - 1];
      assert GuidSet(guids) == GuidSet(guids[1..]);
      GuidSetSize(guids[1..]);
    } else {
      RepeatedGuidSetSmaller(guids[1..], i - 1, j - 1);
    }
  }

  /** The body a placement should end as: built from the mesh's geometry and
      options, then moved to the placed position, unrotated. */
  predicate PlacedAsIntended(b: Option<Body>, p: Placement) {
    && b.Some?
    && b.value.position == ThreeToCannonVec(p.position)
    && b.value.quaternion == CannonQuaternion(0.0, 0.0, 0.0, 1.0)
    && b.value.shape == (if p.opts.shape.Some? then p.opts.shape
                         else ShapeFor(GetGeometryType(p.geometry), Parameters(p.geometry)))
    && b.value.mass == p.opts.mass && b.value.bodyType == p.opts.bodyType && b.value.material == p.opts.material
  }

  /** Meshes with distinct guids, built on a fresh worker: the world holds one
      body per mesh and the dictionary reaches every one of them. */
  lemma TrafficRegistrySize(guids: seq<string>, ps: seq<Placement>)
    requires |guids| == |ps| && Distinct(guids)
    ensures var reg := ApplyAll(EmptyRegistry, Traffic(guids, ps));
            Valid(reg) && |reg.world| == |ps| && |reg.bodies| == |ps|
  {
    var reg := ApplyAll(EmptyRegistry, Traffic(guids, ps));
    DistinctGuidSetSize(guids);
    assert reg.bodies.Keys == GuidSet(guids);
  }

  /** Meshes with distinct guids, built and placed one after another on a
      fresh worker: every guid reaches the body its mesh placed. */
  lemma PlacedBodies(guids: seq<string>, ps: seq<Placement>, k: nat)
    requires |guids| == |ps| && Distinct(guids) && k < |ps|
    ensures PlacedAsIntended(Lookup(ApplyAll(EmptyRegistry, Traffic(guids, ps)), guids[k]), ps[k])
  {
    var traffic := Traffic(guids, ps);
    var p := ps[k];
    var made := NewPhysicsMesh(guids[k], p.opts, p.geometry);
    var moved := SetPosition(made.0, p.position);
    RequestsForTraffic(guids, ps, k);
    assert RequestsFor(traffic, guids[k]) == [made.1, PushPose(moved)];
    var pushes := seq(1, i requires 0 <= i < 1 => PushPose([moved][i]));
    assert pushes == [PushPose(moved)];
    assert RequestsFor(traffic, guids[k]) == [made.1] + pushes;
    MeshEndsAtLastPush(EmptyRegistry, traffic, made.0, p.opts, [moved]);
    var b := Lookup(ApplyAll(EmptyRegistry, traffic), guids[k]).value;
    assert SetMeshPosQuatFromBody(moved, b) == moved;
    assert CannonToThreeQuaternion(b.quaternion) == ThreeIdentity;
  }

  /** Guids by counting: the i-th mesh is called by the text of i. */
  function CounterGuids(count: nat): (r: seq<string>)
    ensures |r| == count && Distinct(r)
  {
    var r := seq(count, i requires 0 <= i < count => DecimalString(i));
    forall i, j | 0 <= i < j < count
      ensures r[i] != r[j]
    {
      DecimalStringInjective(i, j);
    }
    r
  }

  /** The scene's traffic with distinct guids. */
  function SceneTraffic(l: Layout): (r: seq<Request>)
    ensures AllWellFormed(r)
  {
    var ps := ScenePlacements(l);
    Traffic(CounterGuids(|ps|), ps)
  }

  /** The scene with distinct guids: one body per mesh, each reachable, each
      where its mesh placed it. */
  lemma ScenePlaced(l: Layout, k: nat)
    requires k < |ScenePlacements(l)|
    ensures var reg := ApplyAll(EmptyRegistry, SceneTraffic(l));
            && |reg.world| == |reg.bodies| == 5 + GRID_SIZE * GRID_SIZE
            && PlacedAsIntended(Lookup(reg, DecimalString(k)), ScenePlacements(l)[k])
  {
    var ps := ScenePlacements(l);
    TrafficRegistrySize(CounterGuids(|ps|), ps);
    PlacedBodies(CounterGuids(|ps|), ps, k);
  }

  /** The body the scene registers for the k-th mesh. */
  function SceneBody(l: Layout, k: nat): Option<Body> {
    Lookup(ApplyAll(EmptyRegistry, SceneTraffic(l)), DecimalString(k))
  }

  predicate StaticWall(b: Option<Body>) {
    && b.Some? && b.value.shape.Some?
    && b.value.mass == Some(0.0) && b.value.bodyType == Some(Static) && b.value.material == Some(Concrete)
  }

  /** Where the inner face of wall i lies: the back wall's half a thickness
      in front of -containerDepth/2, the side walls' at -/+containerWidth/2, the
      top and bottom walls' at +/-containerHeight/2. */
  predicate InnerFaceAt(l: Layout, i: nat, b: Body)
    requires b.shape.Some?
  {
    var half := b.shape.value.halfExtents;
    if i == 0 then b.position.z + half.z == -l.containerDepth / 2.0 + CONTAINER_THICKNESS / 2.0
    else if i == 1 then b.position.x + half.x == -l.containerWidth / 2.0
    else if i == 2 then b.position.x - half.x == l.containerWidth / 2.0
    else if i == 3 then b.position.y - half.y == l.containerHeight / 2.0
    else b.position.y + half.y == -l.containerHeight / 2.0
  }

  /** The walls are static, massless concrete boxes whose inner faces bound a
      cavity exactly the container's width and height. */
  lemma ContainerCavity(l: Layout)
    ensures forall i :: 0 <= i < 5 ==> StaticWall(SceneBody(l, i)) && InnerFaceAt(l, i, SceneBody(l, i).value)
  {
    forall i | 0 <= i < 5
      ensures StaticWall(SceneBody(l, i)) && InnerFaceAt(l, i, SceneBody(l, i).value)
    {
      WallPlaced(l, i);
      WallFace(l, i, SceneBody(l, i).value);
    }
  }

  /** The i-th wall's body is the one its placement describes. */
  lemma WallPlaced(l: Layout, i: nat)
    requires i < 5
    ensures PlacedAsIntended(SceneBody(l, i), ContainerWalls(l)[i])
    ensures StaticWall(SceneBody(l, i))
  {
    var walls := ContainerWalls(l);
    ScenePlaced(l, i);
    assert ScenePlacements(l)[i] == ScenePlacements(l)[..5][i] == walls[i];
  }

  /** A body placed as wall i describes has its inner face where InnerFaceAt says. */
  lemma WallFace(l: Layout, i: nat, b: Body)
    requires i < 5 && PlacedAsIntended(Some(b), ContainerWalls(l)[i])
    ensures b.shape.Some? && InnerFaceAt(l, i, b)
  {
  }

  /** The scene's traffic as written, with each guid drawn from a
      `Math.random()` value. */
  function SceneTrafficAsWritten(l: Layout, randoms: seq<real>): (r: seq<Request>)
    requires |randoms| == |ScenePlacements(l)|
    requires forall i :: 0 <= i < |randoms| ==> 0.0 <= randoms[i] < 1.0
    ensures AllWellFormed(r)
  {
    var ps := ScenePlacements(l);
    Traffic(seq(|randoms|, i requires 0 <= i < |randoms| => GuidFromRandom(randoms[i])), ps)
  }

  /** As written, two meshes whose draws give the same guid leave the
      dictionary with fewer guids than the world has bodies: a body no guid
      reaches, whose mesh can no longer be synchronised. */
  lemma SceneGuidCollisionOrphansBody(l: Layout, randoms: seq<real>, i: nat, j: nat)
    requires |randoms| == |ScenePlacements(l)|
    requires forall k :: 0 <= k < |randoms| ==> 0.0 <= randoms[k] < 1.0
    requires i < j < |randoms| && GuidFromRandom(randoms[i]) == GuidFromRandom(randoms[j])
    ensures var reg := ApplyAll(EmptyRegistry, SceneTrafficAsWritten(l, randoms));
            |reg.bodies| < |reg.world| == |randoms|
  {
    var guids := seq(|randoms|, k requires 0 <= k < |randoms| => GuidFromRandom(randoms[k]));
    RepeatedGuidSetSmaller(guids, i, j);
  }

  /** Such a draw exists: the back and left walls drawing 0.5 and 0.500001,
      the other meshes drawing 0.001, 0.002, and so on. */
  lemma SceneGuidCollisionExample(l: Layout)
    ensures var randoms := [0.5, 0.500001] + seq(|ScenePlacements(l)| - 2, k => (k + 1) as real / 1000.0);
            var reg := ApplyAll(EmptyRegistry, SceneTrafficAsWritten(l, randoms));
            |reg.bodies| < |reg.world|
  {
    var randoms := [0.5, 0.500001] + seq(|ScenePlacements(l)| - 2, k => (k + 1) as real / 1000.0);
    DistinctRandomsCanShareGuid();
    SceneGuidCollisionOrphansBody(l, randoms, 0, 1);
  }
}

=== FILE: vectors.dfy ===
/** The vector and quaternion records of src/utils.ts and the component-wise
    copies between them.

    Three representations of the same three (or four) numbers appear in the
    program: the render library's objects (`THREE.Vector3`, `THREE.Quaternion`),
    the physics library's objects (`CANNON.Vec3`, `CANNON.Quaternion`) and the
    plain records that cross the worker boundary (`simple_position`,
    `simple_quaternion`). They are kept as distinct datatypes here so that every
    conversion is visible and its round trip can be stated. */
module Vectors {

  datatype ThreeVector3 = ThreeVector3(x: real, y: real, z: real)
  datatype CannonVec3 = CannonVec3(x: real, y: real, z: real)
  datatype SimplePosition = SimplePosition(x: real, y: real, z: real)

  datatype ThreeQuaternion = ThreeQuaternion(x: real, y: real, z: real, w: real)
  datatype CannonQuaternion = CannonQuaternion(x: real, y: real, z: real, w: real)
  datatype SimpleQuaternion = SimpleQuaternion(x: real, y: real, z: real, w: real)

  /** The argument type `THREE.Vector3 | CANNON.Vec3` of simplifyPosition. */
  datatype AnyVector3 = FromThree(three: ThreeVector3) | FromCannon(cannon: CannonVec3) {
    function X(): real { match this case FromThree(v) => v.x case FromCannon(v) => v.x }
    function Y(): real { match this case FromThree(v) => v.y case FromCannon(v) => v.y }
    function Z(): real { match this case FromThree(v) => v.z case FromCannon(v) => v.z }
  }

  /** The argument type `THREE.Quaternion | CANNON.Quaternion` of simplifyQuaternion. */
  datatype AnyQuaternion = FromThreeQuat(three: ThreeQuaternion) | FromCannonQuat(cannon: CannonQuaternion) {
    function X(): real { match this case FromThreeQuat(q) => q.x case FromCannonQuat(q) => q.x }
    function Y(): real { match this case FromThreeQuat(q) => q.y case FromCannonQuat(q) => q.y }
    function Z(): real { match this case FromThreeQuat(q) => q.z case FromCannonQuat(q) => q.z }
    function W(): real { match this case FromThreeQuat(q) => q.w case FromCannonQuat(q) => q.w }
  }

  /** The pose a freshly constructed render object has: at the origin, unrotated. */
  const ThreeOrigin: ThreeVector3 := ThreeVector3(0.0, 0.0, 0.0)
  const ThreeIdentity: ThreeQuaternion := ThreeQuaternion(0.0, 0.0, 0.0, 1.0)

  /** threeToCannonVec: a physics vector with the same components. */
  function ThreeToCannonVec(v: ThreeVector3): (r: CannonVec3)
    ensures r.x == v.x && r.y == v.y && r.z == v.z
  {
    CannonVec3(v.x, v.y, v.z)
  }

  /** cannonToThreeVec: a render vector with the same components. */
  function CannonToThreeVec(v: CannonVec3): (r: ThreeVector3)
    ensures r.x == v.x && r.y == v.y && r.z == v.z
  {
    ThreeVector3(v.x, v.y, v.z)
  }

  /** simplifyPosition: the plain {x, y, z} record of either kind of vector. */
  function SimplifyPosition(p: AnyVector3): (r: SimplePosition)
    ensures r.x == p.X() && r.y == p.Y() && r.z == p.Z()
  {
    SimplePosition(p.X(), p.Y(), p.Z())
  }

  /** simplifyQuaternion: the plain {x, y, z, w} record of either kind of quaternion. */
  function SimplifyQuaternion(q: AnyQuaternion): (r: SimpleQuaternion)
    ensures r.x == q.X() && r.y == q.Y() && r.z == q.Z() && r.w == q.W()
  {
    SimpleQuaternion(q.X(), q.Y(), q.Z(), q.W())
  }

  /** `Vec3.copy(p)` applied to a plain record: how the worker turns a received
      position into the physics body's position. */
  function CopyToCannonVec(p: SimplePosition): (r: CannonVec3)
    ensures r.x == p.x && r.y == p.y && r.z == p.z
  {
    CannonVec3(p.x, p.y, p.z)
  }

  /** `Quaternion.copy(q)` applied to a plain record, on the worker side. */
  function CopyToCannonQuaternion(q: SimpleQuaternion): (r: CannonQuaternion)
    ensures r.x == q.x && r.y == q.y && r.z == q.z && r.w == q.w
  {
    CannonQuaternion(q.x, q.y, q.z, q.w)
  }

  /** `THREE.Quaternion.copy` from a physics quaternion, on the render side. */
  function CannonToThreeQuaternion(q: CannonQuaternion): (r: ThreeQuaternion)
    ensures r.x == q.x && r.y == q.y && r.z == q.z && r.w == q.w
  {
    ThreeQuaternion(q.x, q.y, q.z, q.w)
  }

  /** Converting a render vector to the physics library and back is the identity. */
  lemma ThreeCannonRoundTrip(v: ThreeVector3)
    ensures CannonToThreeVec(ThreeToCannonVec(v)) == v
  {
  }

  /** Converting a physics vector to the render library and back is the identity. */
  lemma CannonThreeRoundTrip(v: CannonVec3)
    ensures ThreeToCannonVec(CannonToThreeVec(v)) == v
  {
  }

  /** A render pose that is simplified on the main thread, copied into a physics
      body in the worker and copied back onto a render object arrives unchanged. */
  lemma PoseWireRoundTrip(p: ThreeVector3, q: ThreeQuaternion)
    ensures CannonToThreeVec(CopyToCannonVec(SimplifyPosition(FromThree(p)))) == p
    ensures CannonToThreeQuaternion(CopyToCannonQuaternion(SimplifyQuaternion(FromThreeQuat(q)))) == q
  {
  }

  /** A physics pose that is simplified and copied back into a physics body is unchanged. */
  lemma CannonWireRoundTrip(p: CannonVec3, q: CannonQuaternion)
    ensures CopyToCannonVec(SimplifyPosition(FromCannon(p))) == p
    ensures CopyToCannonQuaternion(SimplifyQuaternion(FromCannonQuat(q))) == q
  {
  }
}

=== FILE: worker.dfy ===
/** The physics worker of src/worker.ts: the mapping from geometry to collision
    shape, the registry of bodies keyed by guid, and its three operations.

    In the source `bodies[guid]` and the entry of `world.bodies` are the same
    object, so teleporting through the dictionary moves the body the world
    steps. The model keeps that sharing explicit: the dictionary maps a guid to
    a handle (an index into the world's body list), and the body itself lives
    only in the list. */
module Worker {
  import opened Wrappers
  import opened Vectors
  import opened Geometry

  /** The z half-extent given to every plane: the literal `1` of addBody. */
  const PLANE_HALF_DEPTH: real := 1.0

  /** A `CANNON.Box`, the only shape the worker builds. */
  datatype Shape = BoxShape(halfExtents: CannonVec3)

  /** The full size of a box shape along each axis. */
  function FullExtents(s: Shape): CannonVec3 {
    CannonVec3(2.0 * s.halfExtents.x, 2.0 * s.halfExtents.y, 2.0 * s.halfExtents.z)
  }

  /** The two named physics materials of src/utils.ts. */
  datatype Material = Concrete | Plastic

  /** `CANNON.BODY_TYPES`. */
  datatype BodyType = Dynamic | Static | Kinematic

  /** The subset of `CANNON.BodyOptions` the program passes; `None` is a key the
      options object does not have. */
  datatype BodyOptions = BodyOptions(
    shape: Option<Shape>,
    position: Option<CannonVec3>,
    quaternion: Option<CannonQuaternion>,
    mass: Option<real>,
    bodyType: Option<BodyType>,
    material: Option<Material>)

  /** An absent options argument: spreading `undefined` adds no keys. */
  const NoOptions: BodyOptions := BodyOptions(None, None, None, None, None, None)

  /** A rigid body as configured by addBody. Fields left `None` are filled by
      the physics library's own defaults, which are not part of this model. */
  datatype Body = Body(
    shape: Option<Shape>,
    position: CannonVec3,
    quaternion: CannonQuaternion,
    mass: Option<real>,
    bodyType: Option<BodyType>,
    material: Option<Material>)

  /** The collision shape for a geometry tag: a box with half of each
      dimension, a plane as a box whose z half-extent is the fixed constant, and
      nothing at all for an unsupported tag (the source logs an error there). */
  function ShapeFor(tag: Option<GeometryType>, params: GeometryParameters): (r: Option<Shape>)
    requires ParametersMatch(tag, params)
    ensures r.None? <==> tag.None?
    ensures tag == Some(BoxGeometryType) ==>
              && r.Some?
              && 2.0 * r.value.halfExtents.x == params.width
              && 2.0 * r.value.halfExtents.y == params.height
              && 2.0 * r.value.halfExtents.z == params.depth
    ensures tag == Some(PlaneGeometryType) ==>
              && r.Some?
              && 2.0 * r.value.halfExtents.x == params.width
              && 2.0 * r.value.halfExtents.y == params.height
              && r.value.halfExtents.z == PLANE_HALF_DEPTH
  {
    match tag
    case Some(PlaneGeometryType) =>
      Some(BoxShape(CannonVec3(params.width / 2.0, params.height / 2.0, PLANE_HALF_DEPTH)))
    case Some(BoxGeometryType) =>
      Some(BoxShape(CannonVec3(params.width / 2.0, params.height / 2.0, params.depth / 2.0)))
    case None =>
      None
  }

  /** For a box geometry the shape's full extents are exactly the vector
      parametersToVec builds from the same parameters. */
  lemma BoxShapeMatchesParametersVec(g: RenderGeometry)
    requires g.BoxGeometry?
    ensures ShapeFor(GetGeometryType(g), Parameters(g)).Some?
    ensures FullExtents(ShapeFor(GetGeometryType(g), Parameters(g)).value)
            == ThreeToCannonVec(ParametersToVec(Parameters(g)))
  {
  }

  /** `new CANNON.Body({shape, position, quaternion, ...physics_opts})`: the
      options are spread last, so every key they carry wins over the computed
      shape and the received pose. */
  function NewBody(shape: Option<Shape>, position: SimplePosition, quaternion: SimpleQuaternion,
                   opts: BodyOptions): (b: Body)
    ensures opts.shape.Some? ==> b.shape == opts.shape
    ensures opts.shape.None? ==> b.shape == shape
    ensures opts.position.Some? ==> b.position == opts.position.value
    ensures opts.position.None? ==> b.position == CopyToCannonVec(position)
    ensures opts.quaternion.Some? ==> b.quaternion == opts.quaternion.value
    ensures opts.quaternion.None? ==> b.quaternion == CopyToCannonQuaternion(quaternion)
    ensures b.mass == opts.mass && b.bodyType == opts.bodyType && b.material == opts.material
  {
    Body(
      if opts.shape.Some? then opts.shape else shape,
      opts.position.GetOr(CopyToCannonVec(position)),
      opts.quaternion.GetOr(CopyToCannonQuaternion(quaternion)),
      opts.mass,
      opts.bodyType,
      opts.material)
  }

  /** The body with its position and orientation overwritten and everything
      else kept: the two `copy` calls of updateBodyPositionQuaternion. */
  function Teleport(b: Body, position: SimplePosition, quaternion: SimpleQuaternion): (r: Body)
    ensures r.position == CopyToCannonVec(position)
    ensures r.quaternion == CopyToCannonQuaternion(quaternion)
    ensures r.shape == b.shape && r.mass == b.mass && r.bodyType == b.bodyType && r.material == b.material
  {
    b.(position := CopyToCannonVec(position), quaternion := CopyToCannonQuaternion(quaternion))
  }

  /** The worker's state: the `bodies` dictionary (guid to handle) and the
      world's body list. */
  datatype Registry = Registry(bodies: map<string, nat>, world: seq<Body>)

  /** The state when the worker starts. */
  const EmptyRegistry: Registry := Registry(map[], [])

  /** Every handle names a body of the world, and no two guids share one. */
  predicate Valid(reg: Registry) {
    && (forall g :: g in reg.bodies ==> reg.bodies[g] < |reg.world|)
    && (forall g, h :: g in reg.bodies && h in reg.bodies && g != h ==> reg.bodies[g] != reg.bodies[h])
  }

  /** `bodies[guid]`: the body registered under a guid, or `undefined`. */
  function Lookup(reg: Registry, guid: string): (r: Option<Body>)
    ensures Valid(reg) ==> (r.Some? <==> guid in reg.bodies)
    ensures r.Some? ==> guid in reg.bodies && r.value in reg.world
  {
    if guid in reg.bodies && reg.bodies[guid] < |reg.world| then Some(reg.world[reg.bodies[guid]]) else None
  }

  /** addBody: build a body from the tag, parameters, pose and options, record
      it under the guid and append it to the world. An unsupported tag still
      registers a body (with no shape unless the options supply one); an
      existing guid is rebound, and its earlier body stays in the world. */
  function AddBody(reg: Registry, guid: string, tag: Option<GeometryType>, params: GeometryParameters,
                   position: SimplePosition, quaternion: SimpleQuaternion, opts: BodyOptions): (r: Registry)
    requires ParametersMatch(tag, params)
    ensures r.bodies.Keys == reg.bodies.Keys + {guid}
    ensures |r.world| == |reg.world| + 1
    ensures r.world[..|reg.world|] == reg.world
    ensures Lookup(r, guid) == Some(NewBody(ShapeFor(tag, params), position, quaternion, opts))
    ensures r.bodies[guid] == |reg.world|
    ensures forall g :: g in reg.bodies && g != guid ==> r.bodies[g] == reg.bodies[g]
    ensures r.world[|reg.world|] == NewBody(ShapeFor(tag, params), position, quaternion, opts)
    ensures Valid(reg) ==> Valid(r)
    ensures Valid(reg) ==> forall g :: g != guid ==> Lookup(r, g) == Lookup(reg, g)
  {
    var body := NewBody(ShapeFor(tag, params), position, quaternion, opts);
    var r := Registry(reg.bodies[guid := |reg.world|], reg.world + [body]);
    assert r.world[..|reg.world|] == reg.world;
    r
  }

  /** Re-adding a guid that is already registered leaves the earlier body in
      the world at its old place, but no guid reaches it any more. */
  lemma ReAddOrphansEarlierBody(reg: Registry, guid: string, tag: Option<GeometryType>,
                                params: GeometryParameters, position: SimplePosition,
                                quaternion: SimpleQuaternion, opts: BodyOptions)
    requires Valid(reg) && guid in reg.bodies
    requires ParametersMatch(tag, params)
    ensures var r := AddBody(reg, guid, tag, params, position, quaternion, opts);
            && |r.bodies| == |reg.bodies|
            && r.world[reg.bodies[guid]] == reg.world[reg.bodies[guid]]
            && forall g :: g in r.bodies ==> r.bodies[g] != reg.bodies[guid]
  {
    var r := AddBody(reg, guid, tag, params, position, quaternion, opts);
    assert r.bodies.Keys == reg.bodies.Keys;
    var i := reg.bodies[guid];
    assert r.world[i] == r.world[..|reg.world|][i];
  }

  /** updateBodyPositionQuaternion: teleport the body registered under the
      guid; an unknown guid is ignored without an error. */
  function UpdateBodyPositionQuaternion(reg: Registry, guid: string, position: SimplePosition,
                                        quaternion: SimpleQuaternion): (r: Registry)
    ensures r.bodies == reg.bodies && |r.world| == |reg.world|
    ensures Lookup(reg, guid).None? ==> r == reg
    ensures Lookup(reg, guid).Some? ==> Lookup(r, guid) == Some(Teleport(Lookup(reg, guid).value, position, quaternion))
    ensures forall i :: 0 <= i < |reg.world| && (guid !in reg.bodies || i != reg.bodies[guid]) ==> r.world[i] == reg.world[i]
    ensures Valid(reg) ==> Valid(r)
    ensures Valid(reg) ==> forall g :: g != guid ==> Lookup(r, g) == Lookup(reg, g)
  {
    match Lookup(reg, guid)
    case None => reg
    case Some(b) =>
      reg.(world := reg.world[reg.bodies[guid] := Teleport(b, position, quaternion)])
  }

  /** Repeating an update changes nothing further. */
  lemma UpdateIdempotent(reg: Registry, guid: string, position: SimplePosition, quaternion: SimpleQuaternion)
    ensures var once := UpdateBodyPositionQuaternion(reg, guid, position, quaternion);
            UpdateBodyPositionQuaternion(once, guid, position, quaternion) == once
  {
  }

  /** Of two updates of the same guid only the later one is visible. */
  lemma UpdateLastWriteWins(reg: Registry, guid: string, p1: SimplePosition, q1: SimpleQuaternion,
                            p2: SimplePosition, q2: SimpleQuaternion)
    ensures UpdateBodyPositionQuaternion(UpdateBodyPositionQuaternion(reg, guid, p1, q1), guid, p2, q2)
            == UpdateBodyPositionQuaternion(reg, guid, p2, q2)
  {
  }

  /** The dictionary as the caller sees it: each guid with the body it names. */
  function Snapshot(reg: Registry): (m: map<string, Body>)
    ensures Valid(reg) ==> m.Keys == reg.bodies.Keys
    ensures forall g :: g in m ==> Lookup(reg, g) == Some(m[g])
  {
    map g | g in reg.bodies && reg.bodies[g] < |reg.world| :: reg.world[reg.bodies[g]]
  }

  /** What tick resolves to: the stepped registry and its dictionary. */
  datatype TickResult = TickResult(registry: Registry, returned: map<string, Body>)

  /** tick: advance the world by one step (the physics library's fixed step,
      a parameter here) and hand back the same dictionary. The step moves
      bodies but neither adds nor removes any. */
  function Tick(reg: Registry, step: seq<Body> -> seq<Body>): (r: TickResult)
    requires |step(reg.world)| == |reg.world|
    ensures r.registry.bodies == reg.bodies
    ensures r.registry.world == step(reg.world)
    ensures Valid(reg) ==> Valid(r.registry)
    ensures Valid(reg) ==> r.returned.Keys == reg.bodies.Keys
    ensures forall g :: g in r.returned ==>
              g in reg.bodies && reg.bodies[g] < |reg.world| && r.returned[g] == step(reg.world)[reg.bodies[g]]
  {
    var stepped := reg.(world := step(reg.world));
    TickResult(stepped, Snapshot(stepped))
  }
}

=== FILE: wrappers.dfy ===
/** The optional-value type used throughout the model: `None` stands for a
    JavaScript `undefined` (a missing key, an absent option, a function that
    returned nothing). */
module Wrappers {

  datatype Option<+T> = None | Some(value: T) {

    /** The value if present, otherwise the given default (the `??` of the source). */
    function GetOr(default: T): T {
      match this
      case Some(v) => v
      case None => default
    }
  }
}
